=== FILE: README.md ===
# ClipBot decision rules in Dafny

ClipBot turns home videos into short clips. It detects the scenes of each video, trims
each scene to a maximum length, adds fades, mixes background music with the original
audio, resizes to a target resolution and writes one file per scene. The detection,
mixing, resizing and encoding are all done by scenedetect and moviepy. What the script
decides for itself is a set of sequential rules around those calls, and this project
models those rules as pure Dafny functions and proves properties about them:

- **Scene cache** (`SceneCache`, `scene_cache.dfy`). A video's scene list is cached in
  `.clipbot_cache/<file name>_<mtime>.pkl` beside the video. On a hit the cached list is
  returned and detection does not run. A changed mtime changes the cache file name,
  because that name is injective in (name, mtime).
- **Audio mix** (`AudioMix`, `audio_mix.dfy`). Given whether the clip has audio, whether
  music was loaded and the mute flag, this decides which streams are mixed. It records
  how each stream is treated (loudness target, high-pass filter, compressor, fades) and
  the mix weights 1.0 / 0.2 / 1.0.
- **Resolution** (`Resolution`, `resolution.dfy`). The `480p`/`720p`/`1080p`/`original`
  choice maps to a target size, and the per-clip resize decision follows from it.
- **Clip planning** (`ClipPlan`, `clip_plan.dfy`). This is the per-scene loop of
  `process_video`. For each scene, in order, it reuses an existing output when caching
  is on, drops scenes under one second, clamps the end to `start + max_clip`, sets the
  fade to `min(fade, length/4)` and names the output `<stem>_clip<i+1>.mp4`. A scene is
  kept only if its render succeeds.
- **Batch driver** (`Batch`, `batch.dfy`). This is `process_directory`: a
  case-insensitive extension filter, mirrored or flat output directories, stopping after
  the top directory when not recursive, and the total clip count.
- **One video end to end** (`Pipeline`, `pipeline.dfy`). This chains cached detection,
  the output stem and the clip plan. It proves that a re-run with caching on detects
  nothing and reuses every clip of the first run, when the first run stored the cache
  entry and the second run reads it.

`Options` (`options.dfy`) holds the optional-value datatype. `Text` (`text.dfy`) holds
the Python string behaviour the rules rely on: `str(n)`, `str.lower()` and
`str.endswith`.

Oracles. Everything the libraries or the file system decide is a parameter:
- the scene list detection returns (`found`);
- whether a cache entry unpickles (`loads`) and whether writing it succeeds (`stores`);
- whether an output file exists (`onDisk`, keyed by file name);
- whether rendering scene `i` succeeds (`renders`);
- whether the clip has audio, and its frame size (`Footage`);
- the directory walk (a sequence of `WalkEntry`);
- the result list `process_video` returns for each job of the batch driver.

Idealisations. Times are Dafny `real`, not IEEE doubles. The modification time is
already an integer. A subclip lasts exactly `end - start`. A resize lands exactly on
the target size.

Audio details of the code worth knowing:
- With original audio present and muted, the music enters the mix at weight 1.0
  (vacation_clip_bot.py:152).
- A clip without original audio gets the music with only the volume gain and
  normalisation: no high-pass filter and no fades (vacation_clip_bot.py:114-119).
- The dialogue weight `0.8 if mute_original else 1.0` is modelled as written. The 0.8
  case is unreachable, because a muted clip has no dialogue stream.
  `AudioMix.DialogueAtFullWeight` proves this.

A consequence the model exhibits (`Batch.SameStemSharesClipNames`): `trip.mp4` and
`trip.MOV` in one directory both qualify as videos and share the stem `trip`. So the
second video's clip names are the first's. With caching on, for each of its own scenes
`i` the second video reuses `trip_clip<i+1>.mp4` when that file exists, whether the first
video wrote it or an earlier run left it. Such a scene is not rendered from the second
video, and its name is counted again in the batch's clip total. Its scenes without an
existing output are rendered as usual. The first video's clips beyond the second
video's scene count are not touched.

## Model

| member | source | states |
|---|---|---|
| `Text.NatToStringRoundTrip` | vacation_clip_bot.py:203 | the decimal rendering of the clip number reads back as the same number |
| `Text.IntToStringInjective` | vacation_clip_bot.py:75 | different modification times render to different strings in the cache file name |
| `SceneCache.CacheFileNameInjective` | vacation_clip_bot.py:75 | `<name>_<mtime>.pkl` determines both the name and the mtime (the mtime text holds no `_`) |
| `SceneCache.CachePathInjective` | vacation_clip_bot.py:67-76 | distinct (directory, file name, mtime) triples never share a cache file |
| `SceneCache.MtimeChangeChangesKey` | vacation_clip_bot.py:73-75 | touching a video changes its cache key |
| `SceneCache.DetectScenes` | vacation_clip_bot.py:78-108 | detection is skipped iff caching is on, the entry exists and unpickles, and then the cached list is returned with the cache unchanged; otherwise the fresh list is returned, and it is stored under the key only when caching is on and the write succeeds; no other key changes |
| `SceneCache.RerunIsCacheHit` | vacation_clip_bot.py:83-106 | after a cached run, a second run on the unmodified video whose read succeeds does not detect and returns the same scenes, even when the first run's read failed and it rewrote the entry |
| `SceneCache.TouchedVideoIsDetectedAgain` | vacation_clip_bot.py:80-97 | after the mtime changes, the entry stored under the old mtime is not used and detection runs again |
| `SceneCache.NoCacheNeverStores` | vacation_clip_bot.py:83-106 | with caching off, detection always runs and no scene list is read from or stored in the cache (the cache directory is still created, see "Left out") |
| `AudioMix.MixAudio` | vacation_clip_bot.py:110-159 | without original audio the result is the bare music track (gain and normalisation only: no high-pass, compressor or fade) or nothing; with it, a composite whose streams are dialogue iff not muted, then music iff loaded; the result is silent iff no stream is mixed |
| `AudioMix.DialogueAtFullWeight` | vacation_clip_bot.py:121-150 | a dialogue stream is never gained or high-passed, and is always compressed, normalised to -12 dB, faded 0.5 s and weighted 1.0; the 0.8 weight is never used |
| `AudioMix.MusicWeight` | vacation_clip_bot.py:127-152 | beside original audio the music is gained by the volume, normalised to -20 dB, high-passed, faded 0.5 s, never compressed, and weighted 0.2 unless muted, else 1.0 |
| `AudioMix.MutedMixIsMusicOrSilent` | vacation_clip_bot.py:113-157 | a muted clip carries only the music at full weight, or no audio when there is no music |
| `Resolution.TargetSize` | vacation_clip_bot.py:357-365 | `original` has no target; each named size is as tall as its label says and as wide as the smallest even width reaching 16:9 |
| `Resolution.ResizeTo` | vacation_clip_bot.py:243-244 | a resize happens iff there is a target and the width or height differs, and then to the target |
| `Resolution.OutputMatchesTarget` | vacation_clip_bot.py:243-244 | every clip ends at the target size (1080p gives exactly 1920x1080); `original` leaves it unchanged |
| `ClipPlan.Stem` | vacation_clip_bot.py:180 | the extension is cut exactly when some dot is preceded by a non-dot character, and then at the last dot, leaving a non-dot in the stem; otherwise the name is kept whole |
| `ClipPlan.ClipNameInjective` | vacation_clip_bot.py:203 | two scenes of one video never share an output name |
| `ClipPlan.RenderClip` | vacation_clip_bot.py:213-244 | a rendered clip starts at the scene start and lasts min(duration, max_clip); its fade is at most the configured fade and at most a quarter of the clip, and equals one of the two; it carries the audio mix and the resize decision |
| `ClipPlan.PlanScene` | vacation_clip_bot.py:202-264 | a scene's entry, when there is one, carries the scene's index and the name `<stem>_clip<i+1>.mp4` |
| `ClipPlan.Collect` | vacation_clip_bot.py:202-264 | the collected entries are the steps' entries in strictly increasing scene order, each the step of its own scene |
| `ClipPlan.PlanScenes` | vacation_clip_bot.py:202-266 | at most one entry per scene, in scene order, each named after its scene and equal to what that scene's own step decides |
| `ClipPlan.PlanCoversScene` | vacation_clip_bot.py:202-264 | scene i has an entry iff its own step yields one, and then exactly that entry; other scenes do not affect it |
| `ClipPlan.ProcessScenes` | vacation_clip_bot.py:202-266 | the loop that appends scene by scene computes the planned list |
| `ClipPlan.ShortSceneNeverRendered` | vacation_clip_bot.py:205-219 | a scene under one second is never rendered; it has an entry iff caching is on and its output exists |
| `ClipPlan.RenderedClipShape` | vacation_clip_bot.py:216-233 | every rendered entry comes from a scene of at least one second whose render succeeded, with the clamped span and bounded fade |
| `ClipPlan.LongSceneIsRendered` | vacation_clip_bot.py:205-261 | a scene of at least one second whose output is not reused and whose render succeeds gets exactly its rendered clip under its own name |
| `ClipPlan.ClipAtLeastOneSecondIff` | vacation_clip_bot.py:216-223 | a rendered clip lasts at least one second iff max_clip is at least one second, since clamping follows the length check |
| `ClipPlan.CacheDecidesReuse` | vacation_clip_bot.py:205-209 | with caching off no entry is reused; with caching on an existing output is reused whatever the scene's length or render outcome |
| `ClipPlan.FailedRenderDropsOnlyItsScene` | vacation_clip_bot.py:211-264 | a scene whose render fails contributes nothing, and every later scene still gets its entry |
| `ClipPlan.ThreeSceneExample` | vacation_clip_bot.py:216-231 | durations 0.5 s, 8 s and 20 s with max 12 s give two clips, of 8 s and 12 s |
| `Batch.EndsWithAny` | vacation_clip_bot.py:291 | a string ends with the suffix tuple iff it ends with one of its suffixes |
| `Batch.IsVideoFileIff` | vacation_clip_bot.py:291 | a file qualifies iff its lower-cased name ends in one of the five video extensions |
| `Batch.VideoExtensionQualifies` | vacation_clip_bot.py:291 | a name ending in a video extension in any letter case qualifies |
| `Batch.StemOfVideoFile` | vacation_clip_bot.py:180 | a qualifying file's stem is its name minus the four-character extension when some non-dot precedes the extension (so `.trip.mp4` gives `.trip`); a name such as `.mp4` or `..mp4` keeps its whole name |
| `Batch.SameStemSharesClipNames` | vacation_clip_bot.py:180-206 | `trip.mp4` and `trip.MOV` both qualify and get identical clip names |
| `Batch.FileJobsMembership` | vacation_clip_bot.py:290-299 | a directory's jobs are exactly its video files, each sent to the mirrored or flat directory |
| `Batch.EntriesJobsMembership` | vacation_clip_bot.py:288-299 | the jobs of several directories are the union of each directory's jobs |
| `Batch.JobsMembership` | vacation_clip_bot.py:288-319 | a video is processed iff it is a video file of a visited directory (every one, or only the first walked when not recursive), with the prescribed output directory |
| `Batch.NonRecursiveIsFlat` | vacation_clip_bot.py:295-319 | without recursion only the first walked directory is processed and all clips go to the flat output directory |
| `Batch.SumClipsAppend` | vacation_clip_bot.py:315 | the clip total of two job lists is the sum of their totals |
| `Batch.ProcessFiles` | vacation_clip_bot.py:290-315 | the loop over one directory adds up the clips of its jobs |
| `Batch.ProcessDirectory` | vacation_clip_bot.py:282-321 | the returned total is the sum of the result lengths over exactly the jobs above |
| `Pipeline.RenderedClipsCarryMusicIffLoaded` | vacation_clip_bot.py:192-199 | every rendered clip of a video mixes in music iff the music path is given, is non-empty, exists and opens; otherwise no rendered clip does |
| `Pipeline.ProcessVideo` | vacation_clip_bot.py:180-266 | a video's run reports the detector's cache and detection flag; its entries are the clip plan, with the music flag set by whether the music loaded, of the scene list the detector returned (the cached list on a hit), at most one per scene, in scene order, each named after the video's stem and equal to its scene's step; nothing is yielded when detection finds no scenes |
| `Pipeline.RerunReusesEverything` | vacation_clip_bot.py:183-209 | when the first run stored the cache entry and the second run reads it, a cached re-run on the unmodified video does not detect, leaves the cache as it was and reuses every clip of the first run |
| `Pipeline.NoCacheRun` | vacation_clip_bot.py:183-209 | with caching off, detection runs, the cache is untouched and every entry is freshly rendered |

## Left out

- Scene detection, subclip extraction, fades, loudness normalisation, the high-pass and
  compressor filters, resizing and encoding are library calls. They appear only as
  oracles or as labels on a track or clip.
- `download_background_music` is network I/O. `main`'s argument parsing, logging,
  timing and exit codes are I/O glue. Only the mapping from a resolution choice to its
  frame size is modelled; that argparse restricts `--resolution` to four names is not.
- Pickling and `os.makedirs` are left out. The order in which `os.walk` visits
  directories is an input. In the script `detect_scenes` computes the cache path
  before it checks `use_cache`, so `.clipbot_cache` is created beside every video even
  with `--no-cache`, and a read-only input directory aborts the run there. So
  `SceneCache.NoCacheNeverStores` says only that no scene list is read or stored, not
  that the file system is untouched. The top directory's relative path `.` is the empty path.
- The float formatting of the modification time (`:.0f`) is left out. The mtime is
  taken as an integer, so `SceneCache.MtimeChangeChangesKey` speaks of whole seconds.
  In the script, two modification times that round to the same second (100.2 and
  100.4, say) give the same cache file, so an edit within that second reuses the
  stale scene list. The key is only the path and the mtime: the detection `threshold`
  is not part of it, so a re-run with a different `--threshold` reuses the scene list
  found with the old one (`SceneCache.RerunIsCacheHit` leaves the second run's
  detection result unconstrained).
- Arithmetic on seconds is exact `real` arithmetic, not IEEE doubles.
- `Text.Lower`: maps ASCII letters only. Python lower-cases all of Unicode, and a few
  characters change length when it does.
- `ClipPlan.Stem`: works on a bare file name. The directory part that `os.path.basename`
  removes is not modelled.
- `SceneCache.DetectScenes`: a failed cache write leaves the cache unchanged. A file
  that is truncated and left corrupt shows up on the next read through `loads`.
  Detection errors, which abort the whole run in the script, are not modelled.
- `ClipPlan.PlanScenes`: every exception inside the per-scene `try` is folded into the
  one `renders(i)` oracle. Music is loaded once per video, before the loop.
- `Batch.ProcessDirectory`: `process_video` is an oracle from job to result list. The
  model does not connect it to `Pipeline.ProcessVideo` or to cache state carried
  between videos.
- `Pipeline.ProcessVideo`: whether the music file exists and opens are oracles, and the
  `music` field of the settings passed in is ignored. The early return when no scenes
  are detected is covered, because planning an empty scene list yields nothing.

=== FILE: audio_mix.dfy ===
/**
 The audio-mix decision of `process_audio`: which streams reach the clip, how each is
 treated and with what weight. Signal processing is not modelled; a track records the
 treatment applied to it.
 */
module AudioMix {

  datatype Stream = Dialogue | Music

  /** Loudness targets (dB) the two streams are normalised to. */
  const DialogueLoudness: int := -12
  const MusicLoudness: int := -20
  /** Fade-in and fade-out (seconds) put on every stream of a composite mix. */
  const MixFade: real := 0.5

  /**
   One audio stream as the mixer prepares it: the gain applied before normalisation,
   the loudness target, whether the 200 Hz high-pass or the dialogue compressor is
   applied, the fade on each end and the final mix weight.
   */
  datatype Track = Track(stream: Stream, gain: real, loudness: int, highPass: bool,
                         compressed: bool, fade: real, weight: real)

  /** No audio at all, a single stream returned as is, or a composite of the listed tracks. */
  datatype AudioPlan = Silent | Alone(track: Track) | Composite(tracks: seq<Track>)

  function Tracks(p: AudioPlan): seq<Track> {
    match p
    case Silent => []
    case Alone(t) => [t]
    case Composite(ts) => ts
  }

  function Streams(ts: seq<Track>): (r: seq<Stream>)
    ensures |r| == |ts|
    ensures forall k :: 0 <= k < |ts| ==> r[k] == ts[k].stream
  {
    if |ts| == 0 then [] else [ts[0].stream] + Streams(ts[1..])
  }

  /**
   The mixer. `hasAudio` says whether the clip carries an audio track, `music` whether
   background music was loaded, `volume` the music gain and `mute` the mute flag.
   */
  function MixAudio(hasAudio: bool, music: bool, volume: real, mute: bool): (p: AudioPlan)
    // A clip without audio gets the music alone, only gain-adjusted and normalised, or nothing.
    ensures !hasAudio && music ==>
              && p.Alone? && p.track.stream == Music && p.track.gain == volume
              && p.track.loudness == MusicLoudness && !p.track.highPass && !p.track.compressed
              && p.track.fade == 0.0 && p.track.weight == 1.0
    ensures !hasAudio && !music ==> p.Silent?
    // Otherwise a composite, dialogue first, each stream at most once.
    ensures hasAudio ==> !p.Alone?
    ensures Streams(Tracks(p)) == (if hasAudio && !mute then [Dialogue] else []) + (if music then [Music] else [])
    ensures p.Silent? <==> Tracks(p) == []
  {
    if !hasAudio then
      if music then Alone(Track(Music, volume, MusicLoudness, false, false, 0.0, 1.0)) else Silent
    else
      var dialogue := if !mute then [Track(Dialogue, 1.0, DialogueLoudness, false, true, MixFade, if mute then 0.8 else 1.0)] else [];
      var background := if music then [Track(Music, volume, MusicLoudness, true, false, MixFade, if !mute then 0.2 else 1.0)] else [];
      var tracks := dialogue + background;
      if |tracks| > 0 then Composite(tracks) else Silent
  }

  /**
   The dialogue stream always enters the mix at full weight: its 0.8 alternative needs a
   muted clip, which has no dialogue. It is compressed but not high-passed, and not gained.
   */
  lemma DialogueAtFullWeight(hasAudio: bool, music: bool, volume: real, mute: bool)
    ensures forall t :: t in Tracks(MixAudio(hasAudio, music, volume, mute)) && t.stream == Dialogue ==>
      && t.weight == 1.0 && t.gain == 1.0 && t.compressed && !t.highPass
      && t.loudness == DialogueLoudness && t.fade == MixFade
  {
  }

  /**
   Music in a composite mix is ducked to 0.2 beside dialogue and raised to 1.0 when muted;
   there it is always high-passed and faded, and never compressed.
   */
  lemma MusicWeight(music: bool, volume: real, mute: bool)
    ensures forall t :: t in Tracks(MixAudio(true, music, volume, mute)) && t.stream == Music ==>
      && t.weight == (if mute then 1.0 else 0.2) && t.highPass && !t.compressed && t.fade == MixFade
      && t.gain == volume && t.loudness == MusicLoudness
  {
  }

  /** Muting leaves only the music, or silence when there is none. */
  lemma MutedMixIsMusicOrSilent(hasAudio: bool, music: bool, volume: real)
    ensures var p := MixAudio(hasAudio, music, volume, true);
      (music ==> |Tracks(p)| == 1 && Tracks(p)[0].stream == Music && Tracks(p)[0].weight == 1.0)
      && (!music ==> p == Silent)
  {
  }

}

=== FILE: batch.dfy ===
/**
 The batch driver `process_directory`: walk the input tree, pick the video files by
 extension, choose each video's output directory and add up the clips produced. The
 walk is an input (the entries `os.walk` yields, in its order) and processing one video
 is an oracle returning that video's output list.
 */
module Batch {
  import opened Options
  import Text
  import ClipPlan
  import SceneCache

  /** The extensions that mark a video file, compared in lower case. */
  const VideoExtensions: seq<string> := [".mp4", ".mov", ".avi", ".mkv", ".wmv"]

  /** `s.endswith(suffixes)` for a tuple of suffixes. */
  function EndsWithAny(s: string, suffixes: seq<string>): (b: bool)
    ensures b <==> exists k :: 0 <= k < |suffixes| && Text.EndsWith(s, suffixes[k])
  {
    if |suffixes| == 0 then false
    else Text.EndsWith(s, suffixes[0]) || EndsWithAny(s, suffixes[1..])
  }

  predicate IsVideoFile(name: string) {
    EndsWithAny(Text.Lower(name), VideoExtensions)
  }

  /** A file qualifies iff its lower-cased name ends in one of the five extensions. */
  lemma IsVideoFileIff(name: string)
    ensures IsVideoFile(name) <==> exists k :: 0 <= k < |VideoExtensions| && Text.EndsWith(Text.Lower(name), VideoExtensions[k])
  {
  }

  /** Any name ending in a video extension, in any letter case, qualifies. */
  lemma VideoExtensionQualifies(stem: string, ext: string)
    requires Text.Lower(ext) in VideoExtensions
    ensures IsVideoFile(stem + ext)
  {
    var low := Text.Lower(stem + ext);
    assert low[|stem|..] == Text.Lower(ext);
    var k :| 0 <= k < |VideoExtensions| && VideoExtensions[k] == Text.Lower(ext);
    assert Text.EndsWith(low, VideoExtensions[k]);
  }

  /** In `s`, the dot at `p` is the last one, so `LastDot` finds it. */
  lemma LastDotIs(s: string, p: nat)
    requires p < |s| && s[p] == '.'
    requires forall j :: p < j < |s| ==> s[j] != '.'
    ensures ClipPlan.LastDot(s) == Some(p)
  {
  }

  /** Each video extension is a dot followed by three characters that are not dots. */
  lemma ExtensionShape(k: nat)
    requires k < |VideoExtensions|
    ensures var ext := VideoExtensions[k];
      |ext| == 4 && ext[0] == '.' && ext[1] != '.' && ext[2] != '.' && ext[3] != '.'
  {
  }

  /** Lower-casing keeps dots where they are and creates none. */
  lemma LowerKeepsDots(name: string, j: nat)
    requires j < |name|
    ensures Text.Lower(name)[j] == '.' <==> name[j] == '.'
  {
  }

  /** In a name whose lower-cased form ends in a dot and three non-dots, that dot is the last one. */
  lemma ExtensionDotIsLast(name: string, ext: string)
    requires Text.EndsWith(Text.Lower(name), ext)
    requires |ext| == 4 && ext[0] == '.' && ext[1] != '.' && ext[2] != '.' && ext[3] != '.'
    ensures name[|name| - 4] == '.'
    ensures forall j :: |name| - 4 < j < |name| ==> name[j] != '.'
  {
    var low := Text.Lower(name);
    var p := |name| - 4;
    assert low[p] == ext[0] && low[p + 1] == ext[1] && low[p + 2] == ext[2] && low[p + 3] == ext[3] by {
      assert low[p..] == ext;
    }
    LowerKeepsDots(name, p);
    forall j | p < j < |name|
      ensures name[j] != '.'
    {
      assert low[j] == ext[j - p];
      LowerKeepsDots(name, j);
    }
  }

  /**
   A video file's output stem is its name without the four-character extension, unless
   only dots precede the extension (`.mp4`, `..mp4`): then the whole name is kept.
   */
  lemma StemOfVideoFile(name: string)
    requires IsVideoFile(name)
    ensures |name| >= 4
    ensures (exists k :: 0 <= k < |name| - 4 && name[k] != '.') ==> ClipPlan.Stem(name) == name[..|name| - 4]
    ensures (forall k :: 0 <= k < |name| - 4 ==> name[k] == '.') ==> ClipPlan.Stem(name) == name
  {
    var k :| 0 <= k < |VideoExtensions| && Text.EndsWith(Text.Lower(name), VideoExtensions[k]);
    ExtensionShape(k);
    ExtensionDotIsLast(name, VideoExtensions[k]);
    LastDotIs(name, |name| - 4);
  }

  lemma TripMp4Qualifies()
    ensures IsVideoFile("trip.mp4")
  {
    assert Text.Lower(".mp4") == ".mp4" == VideoExtensions[0];
    VideoExtensionQualifies("trip", ".mp4");
    assert "trip" + ".mp4" == "trip.mp4";
  }

  lemma TripMovQualifies()
    ensures IsVideoFile("trip.MOV")
  {
    assert Text.Lower(".MOV") == ".mov" == VideoExtensions[1];
    VideoExtensionQualifies("trip", ".MOV");
    assert "trip" + ".MOV" == "trip.MOV";
  }

  lemma TripFilesStem()
    ensures ClipPlan.Stem("trip.mp4") == "trip" && ClipPlan.Stem("trip.MOV") == "trip"
  {
    LastDotIs("trip.mp4", 4);
    LastDotIs("trip.MOV", 4);
    assert "trip.mp4"[0] != '.' && "trip.MOV"[0] != '.';
  }

  /** Two videos of one directory that differ only in extension share a stem, hence every clip name. */
  lemma SameStemSharesClipNames(i: nat)
    ensures IsVideoFile("trip.mp4") && IsVideoFile("trip.MOV")
    ensures ClipPlan.ClipName(ClipPlan.Stem("trip.mp4"), i) == ClipPlan.ClipName(ClipPlan.Stem("trip.MOV"), i)
  {
    TripMp4Qualifies();
    TripMovQualifies();
    TripFilesStem();
  }

  /** One entry of the walk: a directory, relative to the input directory, and its files. */
  datatype WalkEntry = WalkEntry(rel: SceneCache.Path, files: seq<string>)

  /** One call of `process_video`: the video's directory and name, and the directory its clips go to. */
  datatype Job = Job(dir: SceneCache.Path, file: string, outDir: SceneCache.Path)

  /** Clips of a video in `rel` go to the mirrored `outDir/rel` when recursive, else to `outDir`. */
  function OutputDirFor(outDir: SceneCache.Path, rel: SceneCache.Path, recursive: bool): SceneCache.Path {
    if recursive then outDir + rel else outDir
  }

  /** The jobs for the video files among `files` of directory `rel`, in listing order. */
  function FileJobs(rel: SceneCache.Path, files: seq<string>, outDir: SceneCache.Path, recursive: bool): seq<Job>
    decreases |files|
  {
    if |files| == 0 then []
    else
      var n := |files| - 1;
      var prev := FileJobs(rel, files[..n], outDir, recursive);
      if IsVideoFile(files[n]) then prev + [Job(rel, files[n], OutputDirFor(outDir, rel, recursive))] else prev
  }

  /** The jobs of one directory are exactly its video files, each sent to the directory the mode prescribes. */
  lemma {:induction false} FileJobsMembership(rel: SceneCache.Path, files: seq<string>, outDir: SceneCache.Path, recursive: bool, j: Job)
    ensures j in FileJobs(rel, files, outDir, recursive) <==>
      j.dir == rel && j.file in files && IsVideoFile(j.file) && j.outDir == OutputDirFor(outDir, rel, recursive)
    decreases |files|
  {
    if |files| > 0 {
      var n := |files| - 1;
      assert files == files[..n] + [files[n]];
      FileJobsMembership(rel, files[..n], outDir, recursive, j);
    }
  }

  /** The jobs of the listed walk entries, entry by entry. */
  function EntriesJobs(entries: seq<WalkEntry>, outDir: SceneCache.Path, recursive: bool): seq<Job>
    decreases |entries|
  {
    if |entries| == 0 then []
    else
      var n := |entries| - 1;
      EntriesJobs(entries[..n], outDir, recursive) + FileJobs(entries[n].rel, entries[n].files, outDir, recursive)
  }

  lemma {:induction false} EntriesJobsMembership(entries: seq<WalkEntry>, outDir: SceneCache.Path, recursive: bool, j: Job)
    ensures j in EntriesJobs(entries, outDir, recursive) <==>
      exists k :: 0 <= k < |entries| && j in FileJobs(entries[k].rel, entries[k].files, outDir, recursive)
    decreases |entries|
  {
    if |entries| > 0 {
      var n := |entries| - 1;
      EntriesJobsMembership(entries[..n], outDir, recursive, j);
      assert forall k :: 0 <= k < n ==> entries[..n][k] == entries[k];
    }
  }

  /** The walk entries the driver looks at: all of them, or only the top directory when not recursive. */
  function Visited(walk: seq<WalkEntry>, recursive: bool): seq<WalkEntry> {
    if recursive || |walk| == 0 then walk else walk[..1]
  }

  function Jobs(walk: seq<WalkEntry>, outDir: SceneCache.Path, recursive: bool): seq<Job> {
    EntriesJobs(Visited(walk, recursive), outDir, recursive)
  }

  /** A video is processed iff it is a video file of a visited directory, with the output directory the mode prescribes. */
  lemma JobsMembership(walk: seq<WalkEntry>, outDir: SceneCache.Path, recursive: bool, j: Job)
    ensures j in Jobs(walk, outDir, recursive) <==>
      exists k :: 0 <= k < |walk| && (recursive || k == 0)
        && j.dir == walk[k].rel && j.file in walk[k].files && IsVideoFile(j.file)
        && j.outDir == OutputDirFor(outDir, walk[k].rel, recursive)
  {
    var v := Visited(walk, recursive);
    EntriesJobsMembership(v, outDir, recursive, j);
    if j in Jobs(walk, outDir, recursive) {
      var k :| 0 <= k < |v| && j in FileJobs(v[k].rel, v[k].files, outDir, recursive);
      assert v[k] == walk[k];
      FileJobsMembership(v[k].rel, v[k].files, outDir, recursive, j);
    }
    if exists k :: 0 <= k < |walk| && (recursive || k == 0)
        && j.dir == walk[k].rel && j.file in walk[k].files && IsVideoFile(j.file)
        && j.outDir == OutputDirFor(outDir, walk[k].rel, recursive) {
      var k :| 0 <= k < |walk| && (recursive || k == 0)
        && j.dir == walk[k].rel && j.file in walk[k].files && IsVideoFile(j.file)
        && j.outDir == OutputDirFor(outDir, walk[k].rel, recursive);
      assert v[k] == walk[k];
      FileJobsMembership(v[k].rel, v[k].files, outDir, recursive, j);
    }
  }

  /** Without recursion only the top directory is processed, and every clip lands in the flat output directory. */
  lemma NonRecursiveIsFlat(walk: seq<WalkEntry>, outDir: SceneCache.Path, j: Job)
    requires j in Jobs(walk, outDir, false)
    ensures |walk| > 0 && j.dir == walk[0].rel && j.file in walk[0].files && j.outDir == outDir
  {
    JobsMembership(walk, outDir, false, j);
  }

  /** Total length of the output lists of `jobs`. */
  function SumClips(jobs: seq<Job>, clips: Job -> seq<string>): nat
    decreases |jobs|
  {
    if |jobs| == 0 then 0 else SumClips(jobs[..|jobs| - 1], clips) + |clips(jobs[|jobs| - 1])|
  }

  lemma {:induction false} SumClipsAppend(a: seq<Job>, b: seq<Job>, clips: Job -> seq<string>)
    ensures SumClips(a + b, clips) == SumClips(a, clips) + SumClips(b, clips)
    decreases |b|
  {
    if |b| > 0 {
      var n := |b| - 1;
      assert (a + b)[..|a + b| - 1] == a + b[..n];
      SumClipsAppend(a, b[..n], clips);
    } else {
      assert a + b == a;
    }
  }

  /** The inner loop over one directory's files; `clips` stands for `process_video` on one job. */
  method ProcessFiles(e: WalkEntry, outDir: SceneCache.Path, recursive: bool,
                      clips: Job -> seq<string>) returns (subtotal: nat)
    ensures subtotal == SumClips(FileJobs(e.rel, e.files, outDir, recursive), clips)
  {
    subtotal := 0;
    var f := 0;
    while f < |e.files|
      invariant 0 <= f <= |e.files|
      invariant subtotal == SumClips(FileJobs(e.rel, e.files[..f], outDir, recursive), clips)
    {
      var file := e.files[f];
      assert e.files[..f + 1][..f] == e.files[..f];
      if IsVideoFile(file) {
        var clipDir := if recursive then outDir + e.rel else outDir;
        subtotal := subtotal + |clips(Job(e.rel, file, clipDir))|;
      }
      f := f + 1;
    }
    assert e.files[..|e.files|] == e.files;
  }

  /** The driver as the script runs it: every walked directory, or only the first when not recursive. */
  method ProcessDirectory(walk: seq<WalkEntry>, outDir: SceneCache.Path, recursive: bool,
                          clips: Job -> seq<string>) returns (total: nat)
    ensures total == SumClips(Jobs(walk, outDir, recursive), clips)
  {
    total := 0;
    var w := 0;
    while w < |walk|
      invariant 0 <= w <= |walk|
      invariant recursive || w == 0
      invariant total == SumClips(EntriesJobs(walk[..w], outDir, recursive), clips)
    {
      var e := walk[w];
      var subtotal := ProcessFiles(e, outDir, recursive, clips);
      assert walk[..w + 1][..w] == walk[..w];
      SumClipsAppend(EntriesJobs(walk[..w], outDir, recursive), FileJobs(e.rel, e.files, outDir, recursive), clips);
      total := total + subtotal;
      w := w + 1;
      if !recursive {
        assert walk[..w] == Visited(walk, recursive);
        break;
      }
    }
    if recursive {
      assert walk[..w] == walk;
    }
  }

}

=== FILE: clip_plan.dfy ===
/**
 The per-scene loop of `process_video`: for each detected scene, in order, reuse an
 existing output, drop a scene shorter than a second, or render a clip clamped to the
 maximum length with a bounded fade. Whether an output file already exists and whether
 rendering succeeds are oracles.
 */
module ClipPlan {
  import opened Options
  import Text
  import SceneCache
  import AudioMix
  import Resolution

  type Scene = SceneCache.Scene

  /** Scenes shorter than this many seconds are dropped. */
  const MinSceneLength: real := 1.0

  /** The options shared by every scene of a run. */
  datatype Settings = Settings(maxClip: real, fade: real, useCache: bool, music: bool,
                               volume: real, mute: bool, target: Option<Resolution.Size>)

  /** What the opened video reports: whether it has an audio track, and its frame size. */
  datatype Footage = Footage(hasAudio: bool, size: Resolution.Size)

  /** A rendered clip: its span in the source, its fade length, its audio and its resize. */
  datatype Clip = Clip(start: real, end: real, fade: real, audio: AudioMix.AudioPlan,
                       resizeTo: Option<Resolution.Size>)

  /** One entry of the result list: the scene's index and the output file name. */
  datatype Entry = Reused(scene: nat, name: string) | Rendered(scene: nat, name: string, clip: Clip)

  /** Position of the last `.` in `s`, if any. */
  function LastDot(s: string): (r: Option<nat>)
    ensures r.Some? ==> r.value < |s| && s[r.value] == '.'
    ensures r.Some? ==> forall j :: r.value < j < |s| ==> s[j] != '.'
    ensures r.None? ==> forall j :: 0 <= j < |s| ==> s[j] != '.'
  {
    if |s| == 0 then None
    else if s[|s| - 1] == '.' then Some(|s| - 1)
    else
      var r := LastDot(s[..|s| - 1]);
      assert s == s[..|s| - 1] + [s[|s| - 1]];
      r
  }

  /**
   A file name without its extension, as `os.path.splitext`: cut at the last dot, unless
   only dots precede it (so `.bashrc` keeps its name).
   */
  function Stem(name: string): (r: string)
    ensures r == name || (|r| < |name| && r == name[..|r|] && name[|r|] == '.')
    ensures r != name ==> forall j :: |r| < j < |name| ==> name[j] != '.'
    ensures r != name ==> exists k :: 0 <= k < |r| && name[k] != '.'
    ensures r != name <==> exists k, d :: 0 <= k < d < |name| && name[k] != '.' && name[d] == '.'
  {
    match LastDot(name)
    case None => name
    case Some(d) =>
      if exists k :: 0 <= k < d && name[k] != '.' then name[..d]
      else
        assert forall k, d' :: 0 <= k < d' < |name| && name[k] != '.' && name[d'] == '.' ==> d' <= d;
        name
  }

  /** Output file name of scene `i` (counted from 0): `<stem>_clip<i+1>.mp4`. */
  function ClipName(stem: string, i: nat): string {
    stem + "_clip" + Text.NatToString(i + 1) + ".mp4"
  }

  /** Different scenes of one video never share an output name. */
  lemma ClipNameInjective(stem: string, i: nat, j: nat)
    requires ClipName(stem, i) == ClipName(stem, j)
    ensures i == j
  {
    var n := ClipName(stem, i);
    var p := |stem + "_clip"|;
    assert Text.NatToString(i + 1) == n[p..|n| - 4];
    assert Text.NatToString(j + 1) == ClipName(stem, j)[p..|n| - 4];
    Text.NatToStringInjective(i + 1, j + 1);
  }

  function Min(a: real, b: real): (m: real)
    ensures m <= a && m <= b && (m == a || m == b)
  {
    if b < a then b else a
  }

  /** The scene's end, pulled in to `start + maxClip` when the scene is longer. */
  function ClampedEnd(s: Scene, maxClip: real): real {
    if s.end - s.start > maxClip then s.start + maxClip else s.end
  }

  /** The rendering of one scene that is long enough. */
  function RenderClip(s: Scene, settings: Settings, footage: Footage): (c: Clip)
    ensures c.start == s.start
    ensures c.end - c.start == Min(SceneCache.Duration(s), settings.maxClip)
    ensures c.fade <= settings.fade && c.fade <= (c.end - c.start) / 4.0
    ensures c.fade == settings.fade || c.fade == (c.end - c.start) / 4.0
    ensures c.audio == AudioMix.MixAudio(footage.hasAudio, settings.music, settings.volume, settings.mute)
    ensures c.resizeTo == Resolution.ResizeTo(settings.target, footage.size)
  {
    var end := ClampedEnd(s, settings.maxClip);
    var fade := Min(settings.fade, (end - s.start) / 4.0);
    Clip(s.start, end, fade,
         AudioMix.MixAudio(footage.hasAudio, settings.music, settings.volume, settings.mute),
         Resolution.ResizeTo(settings.target, footage.size))
  }

  /** What scene `i` contributes to the result, if anything. */
  function PlanScene(stem: string, i: nat, s: Scene, settings: Settings, footage: Footage,
                     onDisk: string -> bool, renders: nat -> bool): (r: Option<Entry>)
    ensures r.Some? ==> r.value.scene == i && r.value.name == ClipName(stem, i)
  {
    var name := ClipName(stem, i);
    if onDisk(name) && settings.useCache then Some(Reused(i, name))
    else if SceneCache.Duration(s) < MinSceneLength then None
    else if renders(i) then Some(Rendered(i, name, RenderClip(s, settings, footage)))
    else None
  }

  /** Every entry a step list holds is tagged with its own position. */
  predicate Indexed(steps: seq<Option<Entry>>) {
    forall j :: 0 <= j < |steps| && steps[j].Some? ==> steps[j].value.scene == j
  }

  /** The entries of `steps`, in order, skipping the empty steps. */
  function Collect(steps: seq<Option<Entry>>): (r: seq<Entry>)
    requires Indexed(steps)
    ensures |r| <= |steps|
    ensures forall k :: 0 <= k < |r| ==> r[k].scene < |steps| && steps[r[k].scene] == Some(r[k])
    ensures forall a, b :: 0 <= a < b < |r| ==> r[a].scene < r[b].scene
    decreases |steps|
  {
    if |steps| == 0 then []
    else
      var n := |steps| - 1;
      var prev := Collect(steps[..n]);
      match steps[n]
      case None => prev
      case Some(e) => prev + [e]
  }

  /** Collecting one more step keeps the earlier entries and appends that step's entry, if any. */
  lemma CollectStep(steps: seq<Option<Entry>>)
    requires Indexed(steps) && |steps| > 0
    ensures var n := |steps| - 1;
      var r := Collect(steps);
      var prev := Collect(steps[..n]);
      && |r| == |prev| + (if steps[n].Some? then 1 else 0)
      && (forall k :: 0 <= k < |prev| ==> r[k] == prev[k] && prev[k].scene < n)
      && (steps[n].Some? ==> r[|prev|] == steps[n].value && steps[n].value.scene == n)
  {
  }

  /** Position `i` has an entry in the collected list exactly when its step holds one. */
  lemma {:induction false} CollectCovers(steps: seq<Option<Entry>>, i: nat)
    requires Indexed(steps) && i < |steps|
    ensures var r := Collect(steps);
      (steps[i].Some? <==> exists k :: 0 <= k < |r| && r[k].scene == i)
      && (forall k :: 0 <= k < |r| && r[k].scene == i ==> Some(r[k]) == steps[i])
    decreases |steps|
  {
    var n := |steps| - 1;
    var r := Collect(steps);
    var prev := Collect(steps[..n]);
    CollectStep(steps);
    if i < n {
      CollectCovers(steps[..n], i);
      assert steps[..n][i] == steps[i];
      forall k | 0 <= k < |r| && r[k].scene == i
        ensures Some(r[k]) == steps[i]
      {
        assert k < |prev| && r[k] == prev[k];
      }
      if steps[i].Some? {
        var k :| 0 <= k < |prev| && prev[k].scene == i;
        assert r[k] == prev[k];
        assert exists k :: 0 <= k < |r| && r[k].scene == i;
      }
    } else {
      forall k | 0 <= k < |r| && r[k].scene == i
        ensures Some(r[k]) == steps[i]
      {
        assert k == |prev|;
      }
      if steps[i].Some? {
        assert r[|prev|].scene == i;
        assert exists k :: 0 <= k < |r| && r[k].scene == i;
      }
    }
  }

  /** The step of every scene, in scene order. */
  function Steps(stem: string, scenes: seq<Scene>, settings: Settings, footage: Footage,
                 onDisk: string -> bool, renders: nat -> bool): (steps: seq<Option<Entry>>)
    ensures |steps| == |scenes| && Indexed(steps)
    ensures forall i :: 0 <= i < |scenes| ==> steps[i] == PlanScene(stem, i, scenes[i], settings, footage, onDisk, renders)
  {
    seq(|scenes|, i requires 0 <= i < |scenes| => PlanScene(stem, i, scenes[i], settings, footage, onDisk, renders))
  }

  /** The result list for the scenes `scenes`, numbered from 0. */
  function PlanScenes(stem: string, scenes: seq<Scene>, settings: Settings, footage: Footage,
                      onDisk: string -> bool, renders: nat -> bool): (r: seq<Entry>)
    ensures |r| <= |scenes|
    ensures forall k :: 0 <= k < |r| ==> r[k].scene < |scenes| && r[k].name == ClipName(stem, r[k].scene)
    ensures forall a, b :: 0 <= a < b < |r| ==> r[a].scene < r[b].scene
    ensures forall k :: 0 <= k < |r| ==>
      r[k].scene < |scenes| && Some(r[k]) == PlanScene(stem, r[k].scene, scenes[r[k].scene], settings, footage, onDisk, renders)
  {
    Collect(Steps(stem, scenes, settings, footage, onDisk, renders))
  }

  /** Scene `i` has an entry exactly when its own step produces one, and then that entry. */
  lemma PlanCoversScene(stem: string, scenes: seq<Scene>, settings: Settings,
                        footage: Footage, onDisk: string -> bool, renders: nat -> bool, i: nat)
    requires i < |scenes|
    ensures var r := PlanScenes(stem, scenes, settings, footage, onDisk, renders);
      var step := PlanScene(stem, i, scenes[i], settings, footage, onDisk, renders);
      (step.Some? <==> exists k :: 0 <= k < |r| && r[k].scene == i)
      && (forall k :: 0 <= k < |r| && r[k].scene == i ==> Some(r[k]) == step)
  {
    var steps := Steps(stem, scenes, settings, footage, onDisk, renders);
    CollectCovers(steps, i);
    assert PlanScenes(stem, scenes, settings, footage, onDisk, renders) == Collect(steps);
    assert steps[i] == PlanScene(stem, i, scenes[i], settings, footage, onDisk, renders);
  }

  /** The loop as the script runs it, appending to the result list scene by scene. */
  method ProcessScenes(stem: string, scenes: seq<Scene>, settings: Settings, footage: Footage,
                       onDisk: string -> bool, renders: nat -> bool) returns (outputs: seq<Entry>)
    ensures outputs == PlanScenes(stem, scenes, settings, footage, onDisk, renders)
  {
    ghost var steps := Steps(stem, scenes, settings, footage, onDisk, renders);
    outputs := [];
    var i := 0;
    while i < |scenes|
      invariant 0 <= i <= |scenes|
      invariant outputs == Collect(steps[..i])
    {
      var s := scenes[i];
      var name := ClipName(stem, i);
      assert steps[..i + 1][..i] == steps[..i];
      assert steps[i] == PlanScene(stem, i, s, settings, footage, onDisk, renders);
      if onDisk(name) && settings.useCache {
        outputs := outputs + [Reused(i, name)];
      } else if SceneCache.Duration(s) < MinSceneLength {
        // too short: skipped
      } else {
        var clip := RenderClip(s, settings, footage);
        if renders(i) {
          outputs := outputs + [Rendered(i, name, clip)];
        }
      }
      i := i + 1;
    }
    assert steps[..|scenes|] == steps;
  }

  /** A scene under a second is never rendered; it appears only as a cached output. */
  lemma ShortSceneNeverRendered(stem: string, scenes: seq<Scene>, settings: Settings,
                                footage: Footage, onDisk: string -> bool, renders: nat -> bool, i: nat)
    requires i < |scenes| && SceneCache.Duration(scenes[i]) < MinSceneLength
    ensures var r := PlanScenes(stem, scenes, settings, footage, onDisk, renders);
      && (forall k :: 0 <= k < |r| && r[k].scene == i ==> r[k].Reused?)
      && ((exists k :: 0 <= k < |r| && r[k].scene == i) <==> settings.useCache && onDisk(ClipName(stem, i)))
  {
    PlanCoversScene(stem, scenes, settings, footage, onDisk, renders, i);
  }

  /** Every rendered clip starts at its scene's start, lasts min(duration, maxClip), and has a bounded fade. */
  lemma RenderedClipShape(stem: string, scenes: seq<Scene>, settings: Settings,
                          footage: Footage, onDisk: string -> bool, renders: nat -> bool)
    ensures var r := PlanScenes(stem, scenes, settings, footage, onDisk, renders);
      forall k :: 0 <= k < |r| && r[k].Rendered? ==>
        var s := scenes[r[k].scene];
        var c := r[k].clip;
        && SceneCache.Duration(s) >= MinSceneLength
        && renders(r[k].scene)
        && c.start == s.start
        && c.end - c.start == Min(SceneCache.Duration(s), settings.maxClip)
        && c.fade <= settings.fade && c.fade <= (c.end - c.start) / 4.0
  {
  }

  /**
   A scene of at least a second whose output is not reused and whose render succeeds is
   kept: its entry is the rendered clip under the scene's own name.
   */
  lemma LongSceneIsRendered(stem: string, scenes: seq<Scene>, settings: Settings,
                            footage: Footage, onDisk: string -> bool, renders: nat -> bool, i: nat)
    requires i < |scenes| && SceneCache.Duration(scenes[i]) >= MinSceneLength && renders(i)
    requires !(settings.useCache && onDisk(ClipName(stem, i)))
    ensures var r := PlanScenes(stem, scenes, settings, footage, onDisk, renders);
      exists k :: 0 <= k < |r| && r[k] == Rendered(i, ClipName(stem, i), RenderClip(scenes[i], settings, footage))
  {
    PlanCoversScene(stem, scenes, settings, footage, onDisk, renders, i);
  }

  /** Clamping comes after the length check, so a rendered clip lasts a second or more iff maxClip does. */
  lemma ClipAtLeastOneSecondIff(s: Scene, settings: Settings, footage: Footage)
    requires SceneCache.Duration(s) >= MinSceneLength
    ensures var c := RenderClip(s, settings, footage);
      c.end - c.start >= MinSceneLength <==> settings.maxClip >= MinSceneLength
  {
  }

  /** With caching off nothing is reused; with caching on an existing output is always reused. */
  lemma CacheDecidesReuse(stem: string, scenes: seq<Scene>, settings: Settings,
                          footage: Footage, onDisk: string -> bool, renders: nat -> bool, i: nat)
    requires i < |scenes|
    ensures var r := PlanScenes(stem, scenes, settings, footage, onDisk, renders);
      && (!settings.useCache ==> forall k :: 0 <= k < |r| ==> r[k].Rendered?)
      && (settings.useCache && onDisk(ClipName(stem, i)) ==>
            exists k :: 0 <= k < |r| && r[k] == Reused(i, ClipName(stem, i)))
  {
    PlanCoversScene(stem, scenes, settings, footage, onDisk, renders, i);
  }

  /** A failed render drops that scene only: every other scene keeps the entry it would have had. */
  lemma FailedRenderDropsOnlyItsScene(stem: string, scenes: seq<Scene>, settings: Settings,
                                      footage: Footage, onDisk: string -> bool, renders: nat -> bool, i: nat)
    requires i < |scenes| && !renders(i) && !(settings.useCache && onDisk(ClipName(stem, i)))
    ensures var r := PlanScenes(stem, scenes, settings, footage, onDisk, renders);
      && (forall k :: 0 <= k < |r| ==> r[k].scene != i)
      && (forall j :: i < j < |scenes| && PlanScene(stem, j, scenes[j], settings, footage, onDisk, renders).Some? ==>
            exists k :: 0 <= k < |r| && r[k].scene == j)
  {
    PlanCoversScene(stem, scenes, settings, footage, onDisk, renders, i);
    var r := PlanScenes(stem, scenes, settings, footage, onDisk, renders);
    forall j | i < j < |scenes| && PlanScene(stem, j, scenes[j], settings, footage, onDisk, renders).Some?
      ensures exists k :: 0 <= k < |r| && r[k].scene == j
    {
      PlanCoversScene(stem, scenes, settings, footage, onDisk, renders, j);
    }
  }

  /** Durations 0.5 s, 8 s and 20 s with a 12 s maximum give two clips, the second cut to 12 s. */
  lemma ThreeSceneExample(footage: Footage)
    ensures var settings := Settings(12.0, 0.5, false, false, 0.2, false, None);
      var scenes := [SceneCache.Scene(0.0, 0.5), SceneCache.Scene(0.5, 8.5), SceneCache.Scene(8.5, 28.5)];
      var r := PlanScenes("trip", scenes, settings, footage, _ => false, _ => true);
      && |r| == 2
      && r[0].scene == 1 && r[0].Rendered? && r[0].clip.end - r[0].clip.start == 8.0
      && r[1].scene == 2 && r[1].Rendered? && r[1].clip.end - r[1].clip.start == 12.0
      && r[1].clip.fade == 0.5
  {
    var settings := Settings(12.0, 0.5, false, false, 0.2, false, None);
    var scenes := [SceneCache.Scene(0.0, 0.5), SceneCache.Scene(0.5, 8.5), SceneCache.Scene(8.5, 28.5)];
    var steps := Steps("trip", scenes, settings, footage, _ => false, _ => true);
    assert steps[0] == None;
    assert steps[1].Some? && steps[2].Some?;
    assert steps[..1][..0] == [];
    assert steps[..2][..1] == steps[..1];
    assert steps[..3][..2] == steps[..2];
    assert steps[..3] == steps;
    assert Collect(steps[..1]) == [];
    assert Collect(steps[..2]) == [steps[1].value];
  }

}

=== FILE: options.dfy ===
/** The optional-value datatype the model uses where the script uses `None`. */
module Options {

  datatype Option<+T> = None | Some(value: T)

}

=== FILE: pipeline.dfy ===
/**
 One video end to end, as `process_video` chains its steps: detect scenes through the
 cache, derive the output stem from the file name, then plan the clips. Music is used
 only when a path is given, exists and loads.
 */
module Pipeline {
  import opened Options
  import SceneCache
  import ClipPlan
  import AudioMix

  /** Whether background music is available: a non-empty path that exists and loads. */
  function MusicLoaded(musicPath: Option<string>, pathExists: bool, loads: bool): (b: bool)
    ensures b <==> musicPath.Some? && musicPath.value != "" && pathExists && loads
    ensures b ==> |musicPath.value| > 0
  {
    match musicPath
    case None => false
    case Some(p) => p != "" && pathExists && loads
  }

  /** The outcome of one video: its result list, the scene cache after it, and whether detection ran. */
  datatype Run = Run(entries: seq<ClipPlan.Entry>, cache: SceneCache.Cache, detected: bool)

  /** The settings a video's clips are planned with: the music flag is whether the music loaded. */
  function Effective(settings: ClipPlan.Settings, musicPath: Option<string>, musicExists: bool,
                     musicLoads: bool): ClipPlan.Settings {
    settings.(music := MusicLoaded(musicPath, musicExists, musicLoads))
  }

  /**
   Processing the video `file` in directory `dir`. The oracles are: `cacheLoads` (the cache
   entry unpickles), `found` (what detection returns), `cacheStores` (the cache entry is
   written), `musicExists` and `musicLoads` (the music file exists and opens), `onDisk` (an
   output name already exists) and `renders` (rendering scene i succeeds). The `music`
   field of `settings` is not consulted: it is replaced by whether the music loaded.
   */
  function ProcessVideo(cache: SceneCache.Cache, dir: SceneCache.Path, file: string, mtime: int,
                        settings: ClipPlan.Settings, footage: ClipPlan.Footage,
                        cacheLoads: bool, found: seq<SceneCache.Scene>, cacheStores: bool,
                        musicPath: Option<string>, musicExists: bool, musicLoads: bool,
                        onDisk: string -> bool, renders: nat -> bool): (r: Run)
    ensures var d := SceneCache.DetectScenes(cache, dir, file, mtime, settings.useCache, cacheLoads, found, cacheStores);
      var settings := Effective(settings, musicPath, musicExists, musicLoads);
      && r.cache == d.cache && r.detected == d.detected
      && r.entries == ClipPlan.PlanScenes(ClipPlan.Stem(file), d.scenes, settings, footage, onDisk, renders)
      && |r.entries| <= |d.scenes|
      && (forall a, b :: 0 <= a < b < |r.entries| ==> r.entries[a].scene < r.entries[b].scene)
      && (forall k :: 0 <= k < |r.entries| ==>
            && r.entries[k].scene < |d.scenes|
            && r.entries[k].name == ClipPlan.ClipName(ClipPlan.Stem(file), r.entries[k].scene)
            && Some(r.entries[k]) == ClipPlan.PlanScene(ClipPlan.Stem(file), r.entries[k].scene,
                 d.scenes[r.entries[k].scene], settings, footage, onDisk, renders))
    ensures |found| == 0 && r.detected ==> r.entries == []
  {
    var d := SceneCache.DetectScenes(cache, dir, file, mtime, settings.useCache, cacheLoads, found, cacheStores);
    var settings := Effective(settings, musicPath, musicExists, musicLoads);
    Run(ClipPlan.PlanScenes(ClipPlan.Stem(file), d.scenes, settings, footage, onDisk, renders), d.cache, d.detected)
  }

  /** Music is mixed into no rendered clip or into every one, according to whether it loaded. */
  lemma RenderedClipsCarryMusicIffLoaded(cache: SceneCache.Cache, dir: SceneCache.Path, file: string, mtime: int,
                                         settings: ClipPlan.Settings, footage: ClipPlan.Footage,
                                         cacheLoads: bool, found: seq<SceneCache.Scene>, cacheStores: bool,
                                         musicPath: Option<string>, musicExists: bool, musicLoads: bool,
                                         onDisk: string -> bool, renders: nat -> bool)
    ensures var r := ProcessVideo(cache, dir, file, mtime, settings, footage, cacheLoads, found, cacheStores,
                                  musicPath, musicExists, musicLoads, onDisk, renders);
      forall k :: 0 <= k < |r.entries| && r.entries[k].Rendered? ==>
        (AudioMix.Music in AudioMix.Streams(AudioMix.Tracks(r.entries[k].clip.audio)) <==>
           musicPath.Some? && musicPath.value != "" && musicExists && musicLoads)
  {
    var r := ProcessVideo(cache, dir, file, mtime, settings, footage, cacheLoads, found, cacheStores,
                          musicPath, musicExists, musicLoads, onDisk, renders);
    var d := SceneCache.DetectScenes(cache, dir, file, mtime, settings.useCache, cacheLoads, found, cacheStores);
    var st := Effective(settings, musicPath, musicExists, musicLoads);
    var stem := ClipPlan.Stem(file);
    forall k | 0 <= k < |r.entries| && r.entries[k].Rendered?
      ensures AudioMix.Music in AudioMix.Streams(AudioMix.Tracks(r.entries[k].clip.audio)) <==>
                musicPath.Some? && musicPath.value != "" && musicExists && musicLoads
    {
      var e := r.entries[k];
      assert Some(e) == ClipPlan.PlanScene(stem, e.scene, d.scenes[e.scene], st, footage, onDisk, renders);
      assert e.clip == ClipPlan.RenderClip(d.scenes[e.scene], st, footage);
      var dialogue: seq<AudioMix.Stream> := if footage.hasAudio && !st.mute then [AudioMix.Dialogue] else [];
      var background: seq<AudioMix.Stream> := if st.music then [AudioMix.Music] else [];
      assert AudioMix.Streams(AudioMix.Tracks(e.clip.audio)) == dialogue + background;
      assert AudioMix.Music !in dialogue;
    }
  }

  /** The output names a run produced. */
  function Produced(entries: seq<ClipPlan.Entry>): set<string> {
    set k | 0 <= k < |entries| :: entries[k].name
  }

  /**
   Re-running with caching on against the unmodified video neither detects nor renders
   again: every clip of the first run is reused under the same name.
   */
  lemma RerunReusesEverything(cache: SceneCache.Cache, dir: SceneCache.Path, file: string, mtime: int,
                              settings: ClipPlan.Settings, footage: ClipPlan.Footage,
                              found: seq<SceneCache.Scene>, found2: seq<SceneCache.Scene>,
                              musicPath: Option<string>, musicExists: bool, musicLoads: bool, musicLoads2: bool,
                              onDisk: string -> bool, renders: nat -> bool, renders2: nat -> bool)
    requires settings.useCache
    ensures var first := ProcessVideo(cache, dir, file, mtime, settings, footage, true, found, true,
                                      musicPath, musicExists, musicLoads, onDisk, renders);
      var onDisk2 := (n: string) => onDisk(n) || n in Produced(first.entries);
      var second := ProcessVideo(first.cache, dir, file, mtime, settings, footage, true, found2, true,
                                 musicPath, musicExists, musicLoads2, onDisk2, renders2);
      && !second.detected
      && second.cache == first.cache
      && forall k :: 0 <= k < |first.entries| ==>
           ClipPlan.Reused(first.entries[k].scene, first.entries[k].name) in second.entries
  {
    var first := ProcessVideo(cache, dir, file, mtime, settings, footage, true, found, true,
                              musicPath, musicExists, musicLoads, onDisk, renders);
    var onDisk2 := (n: string) => onDisk(n) || n in Produced(first.entries);
    var second := ProcessVideo(first.cache, dir, file, mtime, settings, footage, true, found2, true,
                               musicPath, musicExists, musicLoads2, onDisk2, renders2);
    var d1 := SceneCache.DetectScenes(cache, dir, file, mtime, true, true, found, true);
    SceneCache.RerunIsCacheHit(cache, dir, file, mtime, true, true, found, found2);
    var stem := ClipPlan.Stem(file);
    forall k | 0 <= k < |first.entries|
      ensures ClipPlan.Reused(first.entries[k].scene, first.entries[k].name) in second.entries
    {
      var e := first.entries[k];
      assert e.name in Produced(first.entries);
      ClipPlan.CacheDecidesReuse(stem, d1.scenes, Effective(settings, musicPath, musicExists, musicLoads2),
                                 footage, onDisk2, renders2, e.scene);
    }
  }

  /** With caching off nothing is read from or written to the cache, and no output is reused. */
  lemma NoCacheRun(cache: SceneCache.Cache, dir: SceneCache.Path, file: string, mtime: int,
                   settings: ClipPlan.Settings, footage: ClipPlan.Footage, cacheLoads: bool,
                   found: seq<SceneCache.Scene>, cacheStores: bool,
                   musicPath: Option<string>, musicExists: bool, musicLoads: bool,
                   onDisk: string -> bool, renders: nat -> bool)
    requires !settings.useCache
    ensures var r := ProcessVideo(cache, dir, file, mtime, settings, footage, cacheLoads, found, cacheStores,
                                  musicPath, musicExists, musicLoads, onDisk, renders);
      && r.detected && r.cache == cache
      && forall k :: 0 <= k < |r.entries| ==> r.entries[k].Rendered?
  {
    if |found| > 0 {
      ClipPlan.CacheDecidesReuse(ClipPlan.Stem(file), found, Effective(settings, musicPath, musicExists, musicLoads),
                                 footage, onDisk, renders, 0);
    }
  }

}

=== FILE: resolution.dfy ===
/**
 The `--resolution` choice, the frame size it stands for, and the per-clip decision
 whether to resize.
 */
module Resolution {
  import opened Options
  import Text

  datatype Size = Size(width: nat, height: nat)

  datatype Choice = P480 | P720 | P1080 | Native

  function ChoiceName(c: Choice): string {
    match c
    case P480 => "480p"
    case P720 => "720p"
    case P1080 => "1080p"
    case Native => "original"
  }

  /**
   The target frame size; `original` has none. A named size is as tall as its label
   says, and as wide as the smallest even width reaching a 16:9 aspect.
   */
  function TargetSize(c: Choice): (t: Option<Size>)
    ensures t.None? <==> c == Native
    ensures t.Some? ==>
      && ChoiceName(c) == Text.NatToString(t.value.height) + "p"
      && t.value.width % 2 == 0
      && t.value.width * 9 >= t.value.height * 16
      && (t.value.width - 2) * 9 < t.value.height * 16
  {
    match c
    case P480 => Some(Size(854, 480))
    case P720 => Some(Size(1280, 720))
    case P1080 => Some(Size(1920, 1080))
    case Native => None
  }

  /** A resize is needed when there is a target and either dimension differs from it. */
  predicate NeedsResize(target: Option<Size>, actual: Size) {
    target.Some? && (actual.width != target.value.width || actual.height != target.value.height)
  }

  /** The size the clip is resized to, if any. */
  function ResizeTo(target: Option<Size>, actual: Size): (r: Option<Size>)
    ensures r.Some? <==> NeedsResize(target, actual)
    ensures r.Some? ==> r == target
  {
    if NeedsResize(target, actual) then target else None
  }

  /** The frame size the written clip has. */
  function OutputSize(target: Option<Size>, actual: Size): Size {
    match ResizeTo(target, actual)
    case Some(s) => s
    case None => actual
  }

  /** Every clip ends up at the target size exactly, and `original` leaves it as it was. */
  lemma OutputMatchesTarget(c: Choice, actual: Size)
    ensures var t := TargetSize(c);
      && (t.Some? ==> OutputSize(t, actual) == t.value)
      && (c == Native ==> OutputSize(t, actual) == actual && ResizeTo(t, actual).None?)
      && (c == P1080 ==> OutputSize(t, actual) == Size(1920, 1080))
  {
  }

}

=== FILE: scene_cache.dfy ===
/**
 The scene detector's on-disk cache. A video's scene list is stored beside it in
 `.clipbot_cache/<file name>_<mtime>.pkl`; the file's path plus its modification time is
 the whole key, with no content hash. Scene detection itself is an oracle: the list it
 would return is a parameter.
 */
module SceneCache {
  import Text

  /** A detected scene: a contiguous span of the video, in seconds. */
  datatype Scene = Scene(start: real, end: real)

  function Duration(s: Scene): real {
    s.end - s.start
  }

  /** A file-system path as its sequence of components. */
  type Path = seq<string>

  const CacheDirName: string := ".clipbot_cache"
  const CacheSuffix: string := ".pkl"

  /** The cached scene lists, keyed by cache-file path. */
  type Cache = map<Path, seq<Scene>>

  function CacheFileName(name: string, mtime: int): string {
    name + "_" + Text.IntToString(mtime) + CacheSuffix
  }

  /** Where the scenes of video `name` in directory `dir`, modified at `mtime`, are cached. */
  function CachePath(dir: Path, name: string, mtime: int): (p: Path)
    ensures |p| == |dir| + 2 && p[..|dir|] == dir && p[|dir|] == CacheDirName
  {
    dir + [CacheDirName, CacheFileName(name, mtime)]
  }

  /** In `a + [sep] + t` with no separator in `t`, the last separator is at `|a|`. */
  lemma LastSeparatorAt(a: string, t: string, sep: char)
    requires sep !in t
    ensures (a + [sep] + t)[|a|] == sep
    ensures forall j :: |a| < j < |a| + 1 + |t| ==> (a + [sep] + t)[j] != sep
  {
    var s := a + [sep] + t;
    forall j | |a| < j < |a| + 1 + |t|
      ensures s[j] != sep
    {
      assert s[j] == t[j - |a| - 1];
    }
  }

  /** Splitting at the last separator is unique when the tails hold no separator. */
  lemma SplitAtLastSeparator(a1: string, t1: string, a2: string, t2: string, sep: char)
    requires sep !in t1 && sep !in t2
    requires a1 + [sep] + t1 == a2 + [sep] + t2
    ensures a1 == a2 && t1 == t2
  {
    var s := a1 + [sep] + t1;
    LastSeparatorAt(a1, t1, sep);
    LastSeparatorAt(a2, t2, sep);
    assert |a1| == |a2|;
    assert a1 == s[..|a1|];
    assert a2 == s[..|a2|];
    assert t1 == s[|a1| + 1..];
    assert t2 == s[|a2| + 1..];
  }

  lemma CacheFileNameInjective(n1: string, m1: int, n2: string, m2: int)
    requires CacheFileName(n1, m1) == CacheFileName(n2, m2)
    ensures n1 == n2 && m1 == m2
  {
    var t1, t2 := Text.IntToString(m1), Text.IntToString(m2);
    var s := CacheFileName(n1, m1);
    assert n1 + "_" + t1 == s[..|s| - |CacheSuffix|];
    assert n2 + "_" + t2 == s[..|s| - |CacheSuffix|];
    SplitAtLastSeparator(n1, t1, n2, t2, '_');
    Text.IntToStringInjective(m1, m2);
  }

  /** Distinct (directory, name, mtime) triples never share a cache file. */
  lemma CachePathInjective(d1: Path, n1: string, m1: int, d2: Path, n2: string, m2: int)
    requires CachePath(d1, n1, m1) == CachePath(d2, n2, m2)
    ensures d1 == d2 && n1 == n2 && m1 == m2
  {
    var p := CachePath(d1, n1, m1);
    assert p[|p| - 1] == CacheFileName(n1, m1);
    assert CachePath(d2, n2, m2)[|p| - 1] == CacheFileName(n2, m2);
    CacheFileNameInjective(n1, m1, n2, m2);
  }

  /** Touching a video gives it a different cache key, so its old entry is never consulted. */
  lemma MtimeChangeChangesKey(dir: Path, name: string, m1: int, m2: int)
    requires m1 != m2
    ensures CachePath(dir, name, m1) != CachePath(dir, name, m2)
  {
    if CachePath(dir, name, m1) == CachePath(dir, name, m2) {
      CachePathInjective(dir, name, m1, dir, name, m2);
    }
  }

  /** What one call of the detector returns, the cache after it, and whether detection ran. */
  datatype Detection = Detection(scenes: seq<Scene>, cache: Cache, detected: bool)

  /**
   The cached detector. `loads` says whether unpickling an existing entry succeeds,
   `found` is what the detection library returns, `stores` whether writing the entry succeeds.
   */
  function DetectScenes(cache: Cache, dir: Path, name: string, mtime: int, useCache: bool,
                        loads: bool, found: seq<Scene>, stores: bool): (r: Detection)
    ensures var key := CachePath(dir, name, mtime);
      && (!r.detected <==> useCache && key in cache && loads)
      && (!r.detected ==> r.scenes == cache[key] && r.cache == cache)
      && (r.detected ==> r.scenes == found)
      && (useCache && stores && r.detected ==> key in r.cache && r.cache[key] == found)
      && (!useCache || !stores ==> r.cache == cache)
      && (forall k :: k != key ==> (k in r.cache <==> k in cache))
      && (forall k :: k != key && k in cache ==> r.cache[k] == cache[k])
  {
    var key := CachePath(dir, name, mtime);
    if useCache && key in cache && loads then
      Detection(cache[key], cache, false)
    else
      var cache' := if useCache && stores then cache[key := found] else cache;
      Detection(found, cache', true)
  }

  /**
   A second run against an unmodified video is a cache hit returning the first run's scenes,
   whether the first run read the entry or (after a failed read) detected and rewrote it.
   */
  lemma RerunIsCacheHit(cache: Cache, dir: Path, name: string, mtime: int,
                        loads1: bool, loads2: bool, found: seq<Scene>, found2: seq<Scene>)
    requires loads2
    ensures var first := DetectScenes(cache, dir, name, mtime, true, loads1, found, true);
      var second := DetectScenes(first.cache, dir, name, mtime, true, loads2, found2, true);
      && !second.detected
      && second.scenes == first.scenes
      && second.cache == first.cache
  {
  }

  /** After the video is modified, an entry stored under its old mtime is not a hit. */
  lemma TouchedVideoIsDetectedAgain(cache: Cache, dir: Path, name: string, m1: int, m2: int,
                                    loads: bool, found: seq<Scene>, found2: seq<Scene>)
    requires m1 != m2
    requires CachePath(dir, name, m2) !in cache
    ensures var first := DetectScenes(cache, dir, name, m1, true, loads, found, true);
      var second := DetectScenes(first.cache, dir, name, m2, true, loads, found2, true);
      second.detected && second.scenes == found2
  {
    MtimeChangeChangesKey(dir, name, m1, m2);
  }

  /** With caching off the cache is neither read nor written. */
  lemma NoCacheNeverStores(cache: Cache, dir: Path, name: string, mtime: int,
                           loads: bool, found: seq<Scene>, stores: bool)
    ensures var r := DetectScenes(cache, dir, name, mtime, false, loads, found, stores);
      r.detected && r.scenes == found && r.cache == cache
  {
  }

}

=== FILE: text.dfy ===
/**
 String helpers the script gets from Python: `str(n)` of an integer, `str.lower()`
 and `str.endswith(...)`. Only ASCII letters are case-mapped.
 */
module Text {

  predicate IsDigit(c: char) {
    '0' <= c <= '9'
  }

  predicate AllDigits(s: string) {
    forall k :: 0 <= k < |s| ==> IsDigit(s[k])
  }

  function DigitChar(d: nat): (c: char)
    requires d < 10
    ensures IsDigit(c)
  {
    ('0' as int + d) as char
  }

  function DigitValue(c: char): (d: nat)
    requires IsDigit(c)
    ensures d < 10 && DigitChar(d) == c
  {
    c as int - '0' as int
  }

  /** Decimal rendering of a natural number, as Python's `str(n)`: no sign, no leading zero. */
  function NatToString(n: nat): (s: string)
    ensures |s| >= 1 && AllDigits(s)
    ensures s[0] == '0' ==> n == 0
    decreases n
  {
    if n < 10 then [DigitChar(n)] else NatToString(n / 10) + [DigitChar(n % 10)]
  }

  /** Reads a string of decimal digits back as a number. */
  function StringToNat(s: string): nat
    requires AllDigits(s)
  {
    if |s| == 0 then 0 else StringToNat(s[..|s| - 1]) * 10 + DigitValue(s[|s| - 1])
  }

  lemma {:induction false} NatToStringRoundTrip(n: nat)
    ensures StringToNat(NatToString(n)) == n
    decreases n
  {
    if n >= 10 {
      var s := NatToString(n);
      assert s[..|s| - 1] == NatToString(n / 10);
      NatToStringRoundTrip(n / 10);
    }
  }

  lemma NatToStringInjective(a: nat, b: nat)
    requires NatToString(a) == NatToString(b)
    ensures a == b
  {
    NatToStringRoundTrip(a);
    NatToStringRoundTrip(b);
  }

  /** Decimal rendering of an integer, with a leading `-` when negative. */
  function IntToString(m: int): (s: string)
    ensures |s| >= 1
    ensures forall k :: 0 <= k < |s| ==> IsDigit(s[k]) || (k == 0 && s[k] == '-')
    ensures s[0] == '-' <==> m < 0
  {
    if m < 0 then "-" + NatToString(-m) else NatToString(m)
  }

  lemma IntToStringInjective(a: int, b: int)
    requires IntToString(a) == IntToString(b)
    ensures a == b
  {
    if a < 0 && b < 0 {
      assert IntToString(a)[1..] == NatToString(-a);
      assert IntToString(b)[1..] == NatToString(-b);
      NatToStringInjective(-a, -b);
    } else if a >= 0 && b >= 0 {
      NatToStringInjective(a, b);
    }
  }

  predicate IsUpper(c: char) {
    'A' <= c <= 'Z'
  }

  function LowerChar(c: char): (r: char)
    ensures !IsUpper(r)
    ensures IsUpper(c) ==> 'a' <= r <= 'z'
    ensures !IsUpper(c) ==> r == c
  {
    if IsUpper(c) then (c as int + 32) as char else c
  }

  /** ASCII model of `str.lower()`: every upper-case letter mapped to its lower-case form. */
  function Lower(s: string): (r: string)
    ensures |r| == |s|
    ensures forall k :: 0 <= k < |s| ==> r[k] == LowerChar(s[k])
  {
    seq(|s|, k requires 0 <= k < |s| => LowerChar(s[k]))
  }

  predicate EndsWith(s: string, suffix: string) {
    |suffix| <= |s| && s[|s| - |suffix|..] == suffix
  }

}
